=== FILE: README.md ===
# Dubai cookie pre-order system — a Dafny model

This project models the two parts of the pre-order shop that hold rules
worth stating.

**The order server** (`backend/server.js`) keeps a table of orders. It
admits new orders against a daily quota and lets customers look an order
up by its code and phone number. Operators can change an order's status,
delete it and list recent orders. The server also pushes the remaining
stock to every open stock-stream subscriber.

The server is modelled as one object, `OrderStore.OrderService`. It holds:

- the orders table, a map from id to `Orders.Order`;
- the auto-increment id counter;
- the daily limit and the operator credentials;
- the set of open subscribers.

Each route handler that writes or pushes is a method that runs as one
atomic step over that state; the read-only lookup handler is a function,
`Lookup`. The pure parts live in module `Orders`: the order code and its
parser, the operator check, the remaining-stock formula, and the committed
quantity of a day.

**The web client** (`frontend/src/App.jsx`) normalises what the customer
types and gates the buttons. It formats and validates phone numbers, picks
the status pill's class, and backs off when reconnecting to the stock
stream. It also clamps the quantity field, disables the order button when
stock runs out, and decides which status changes the operator's checkboxes
offer. Module `Client` models these. The retry counter and the quantity
field are small classes whose methods update them in place.

Module `Numbers` holds the text-to-number helpers both sides share:

- the decimal rendering of an id;
- the value of a digit string;
- the `replace(/[^0-9]/g, "")` digit filter;
- the part of JavaScript's `Number(string)` that the system relies on.

How the model abstracts the runtime:

- **Clock.** The server's clock is parameters. `Submit` takes `now`, the creation time in whole seconds (the key `datetime(created_at)` compares when listing), and `today`, the local calendar day of that time. `TodayCount`, `BroadcastStock`, `Subscribe`, `PickupRemaining`, `UpdateStatus` and `Delete` take `today`, the local day that `getTodayCount`'s `date('now','localtime')` reads.
- **Day bucketing.** The table's `date(created_at, 'localtime')` is the order's `day` field.
- **Missing fields.** A missing or empty request field is the empty string.
- **Base64.** The decoding of basic credentials is the `decode` function the service is built with.

## Model

| member | source | states |
|---|---|---|
| `Numbers.NatToString` | backend/server.js:93 | `String(id)` for a non-negative id: at least one digit, all digits, and a leading zero only for 0 |
| `Numbers.NatToStringValue` | backend/server.js:93 | The digits `String(id)` produces read back as `id` |
| `Numbers.LeadingZerosValue` | backend/server.js:93 | The zeros `padStart` adds do not change the value of the digits |
| `Numbers.DigitsValueInjective` | backend/server.js:93 | Two digit strings of one length and one value are the same string |
| `Numbers.Digits` | frontend/src/App.jsx:60 | The digit filter keeps only ASCII digits, is never longer than its input, and keeps a leading digit in front |
| `Numbers.DigitsOfNonDigits` | frontend/src/App.jsx:60 | A string without digits filters to nothing |
| `Numbers.DigitsAppend` | frontend/src/App.jsx:60 | Filtering a concatenation is concatenating the filtered parts |
| `Numbers.DigitsOfDigits` | frontend/src/App.jsx:60 | A string of digits passes the filter unchanged |
| `Numbers.TrimStart` | backend/server.js:179 | `Number` ignores leading white space: the result is the suffix left after removing only white space, and it does not start with white space |
| `Numbers.TrimEnd` | backend/server.js:179 | `Number` ignores trailing white space: the result is the prefix left after removing only white space, and it does not end with white space |
| `Numbers.ToNumber` | backend/server.js:179 | `Number(string)` as far as `Number.isInteger` tells: white space around is ignored, the empty string is 0, and a signed decimal is an integer exactly when its fraction is all zeros; `DigitStringToNumber` and `NatToStringToNumber` state its value on digit strings |
| `Numbers.DigitStringToNumber` | backend/server.js:179 | `Number` of a non-empty digit string is the integer it spells, leading zeros included |
| `Numbers.NatToStringToNumber` | backend/server.js:179 | `Number(String(n))` is `n` |
| `Orders.StatusName` | backend/server.js:33 | The three status values are stored as `pending_payment`, `paid` and `picked_up`, the literals the server writes |
| `Orders.StatusNameInjective` | backend/server.js:33 | Distinct statuses are stored as distinct strings |
| `Orders.Target` | backend/server.js:212-310 | mark-picked-up is the only route that writes `picked_up`, and mark-pending the only one that writes `pending_payment`; the other two write `paid` |
| `Orders.PadZeros` | backend/server.js:93 | `padStart(width, "0")` is as long as the wider of the two, ends with the input and adds only zeros |
| `Orders.OrderCode` | backend/server.js:93 | The code is `DUBAI-` followed by zeros and then every digit of the id: length 6 + max(4, number of digits), so ids of five or more digits are not truncated |
| `Orders.LeftmostMatch` | backend/server.js:178 | The first position at or after a start where the pattern matches |
| `Orders.CodeRun` | backend/server.js:178 | What `\d+` captures after a match: the non-empty run of digits right after the prefix, ending at the end of the text or before a non-digit |
| `Orders.CodeDigits` | backend/server.js:178 | The unanchored `/DUBAI-(\d+)/i` search: there is no capture exactly when no position matches, and otherwise the capture is the maximal digit run after the leftmost match |
| `Orders.ParseOrderCode` | backend/server.js:178-179 | The captured digits' value when the pattern matches, `Number(code)` otherwise; `OrderCodeRoundTrip` and `BareIdParses` state what it gives for codes and bare ids |
| `Orders.OrderCodeRoundTrip` | backend/server.js:93 | Parsing `toOrderCode(id)` with its prefix in any letter case gives back `id` |
| `Orders.CodeDigitsAtPrefix` | backend/server.js:178 | After a prefix that matches in any letter case, the capture is the whole run of digits that follows |
| `Orders.OrderCodeParses` | backend/server.js:178-179 | The code the server hands out parses back to the order's id |
| `Orders.BareIdParses` | backend/server.js:179 | A plain decimal id without the prefix is also accepted as a code and gives that id |
| `Orders.NoCodeInDigits` | backend/server.js:178 | The pattern never matches a string of digits, so a bare id falls through to `Number(code)` |
| `Orders.OrderCodeInjective` | backend/server.js:93 | Distinct ids get distinct codes |
| `Orders.Fields` | backend/server.js:103 | `split(":")` yields at least one field and no field contains a colon |
| `Orders.IndexOfColon` | backend/server.js:103 | The first colon of a string that has one |
| `Orders.FieldsJoin` | backend/server.js:103 | Joining the fields with colons gives back the decoded text, so the split loses nothing |
| `Orders.FieldsOfPair` | backend/server.js:103 | `user:rest`, with a user that has no colon, splits into the user and then the text of `rest` up to its first colon |
| `Orders.IsAdmin` | backend/server.js:95-105 | A non-empty token header equal to the token, or a `Basic ` header whose decoded text's first two colon-separated fields are the user and the password; `BasicCredentials`, `ColonPasswordNeverMatches` and `NoCredentialsRefused` state its cases |
| `Orders.BasicCredentials` | backend/server.js:95-105 | With `Basic` credentials `user:password` that contain no colons, the check passes exactly when the token header matches or both user and password match |
| `Orders.DefaultCredentials` | backend/server.js:9-11 | With the default configuration, the token `conik` and basic credentials `conik:conik7897!` are both accepted |
| `Orders.ColonPasswordNeverMatches` | backend/server.js:103-104 | A configured password that contains a colon can never be matched through basic credentials |
| `Orders.NoCredentialsRefused` | backend/server.js:95-105 | Without a token header and without a `Basic ` authorization header, the check fails |
| `Orders.Remaining` | backend/server.js:71 | `max(DAILY_LIMIT - total, 0)` is 0 exactly when the total has reached the limit; otherwise total plus remaining is the limit |
| `Orders.RemainingAntitone` | backend/server.js:141 | A larger committed total never leaves more stock |
| `Orders.Committed` | backend/server.js:58-65 | The quantity committed on a day: the sum of the quantities of the stored orders of that day, whatever their status; the lemmas below state how each write changes it |
| `Orders.CommittedOverRemove` | backend/server.js:58-65 | The daily sum does not depend on the order it visits rows in: any row can be taken out first |
| `Orders.CommittedOverAgree` | backend/server.js:58-65 | The daily sum depends only on the rows it sums |
| `Orders.CommittedRemove` | backend/server.js:312-332 | Deleting a row lowers its day's total by exactly its quantity and leaves every other day alone |
| `Orders.CommittedInsert` | backend/server.js:145-149 | Inserting a row raises its day's total by exactly its quantity and leaves every other day alone |
| `Orders.CommittedReplace` | backend/server.js:58-65 | Replacing a row by one with the same day and quantity leaves every daily total alone, whatever the status |
| `Orders.CommittedOverNonNegative` | backend/server.js:58-65 | With positive quantities, no daily total is negative |
| `Orders.WithStatus` | backend/server.js:223-226 | The `UPDATE ... SET status` changes only that row's status: same ids, same other fields, same other rows |
| `Orders.WithStatusIdempotent` | backend/server.js:212-310 | Setting the same status twice is the same as setting it once |
| `Orders.WithStatusKeepsCommitted` | backend/server.js:58-65 | A status change never alters any day's committed total, since the count has no status filter |
| `OrderStore.StockPush` | backend/server.js:77-79 | Every open subscriber, and nobody else, receives the same remaining figure |
| `OrderStore.RowIdsAppend` | backend/server.js:364-366 | Listing one more row adds exactly its id to the listed ids |
| `OrderStore.RowsOfAppend` | backend/server.js:364-366 | Appending a stored row whose id is not yet listed keeps the listing made of distinct stored rows |
| `OrderStore.NewestFirstAppend` | backend/server.js:365 | Appending a row no newer than any listed row keeps the listing newest first |
| `OrderStore.ListingStep` | backend/server.js:365 | Appending the newest unlisted order keeps the listing correct: distinct stored rows, newest first, nothing unlisted newer than a listed row |
| `OrderStore.WellFormedInsert` | backend/server.js:27 | Inserting a well-formed row under the counter's id uses an id never used before and keeps every row keyed by its id below the counter |
| `OrderStore.OrderService.constructor` | backend/server.js:12-16 | The server starts with an empty table, the counter at 1 and no subscribers |
| `OrderStore.OrderService.TodayCount` | backend/server.js:58-65 | `getTodayCount` returns the sum of the quantities of today's orders, whatever their status |
| `OrderStore.OrderService.BroadcastStock` | backend/server.js:67-83 | Every subscriber receives the current remaining stock; with no subscribers nothing is sent |
| `OrderStore.OrderService.Subscribe` | backend/server.js:342-355 | The connection joins the subscriber set and receives the current remaining stock; the table is untouched |
| `OrderStore.OrderService.PickupRemaining` | backend/server.js:111-120 | The pickup-info figure is today's remaining stock, 0 exactly when today's total has reached the limit |
| `OrderStore.OrderService.Unsubscribe` | backend/server.js:343-345 | A closed connection leaves the subscriber set; nothing else changes |
| `OrderStore.OrderService.Insert` | backend/server.js:145-151 | The insert puts the row under an id never used before, advances the counter by one and adds its quantity to its day only |
| `OrderStore.OrderService.Submit` | backend/server.js:122-169 | The checks run in order: missing fields, then a quantity that is not a positive integer, then the quota. Each rejection writes nothing and sends nothing, and only the third reports the remaining stock. An accepted order gets a fresh id, status `pending_payment`, the given quantity and the fixed pickup slot. Today's total grows by exactly that quantity and stays within the limit if it was within it, and no other day changes. The reported remaining stock is the new one, the new code finds the order again, and every subscriber receives the new stock |
| `OrderStore.OrderService.Lookup` | backend/server.js:171-210 | A missing phone or code is a 400, and a code that yields no integer is a 400. The order is found exactly when the parsed id exists and its phone is the same string. A wrong phone and an unknown id are both not found |
| `OrderStore.OrderService.LookupFindsStored` | backend/server.js:171-210 | A stored order is always found by its own code together with its phone |
| `OrderStore.OrderService.UpdateStatus` | backend/server.js:212-310 | Without operator rights the call is refused with 401 and nothing changes. A non-integer id is a 400 and an unknown id a 404, and neither changes anything. Otherwise only that order's status becomes the route's target, whatever it was, no daily total changes, and the stock is pushed |
| `OrderStore.OrderService.Delete` | backend/server.js:312-332 | 401, 400 and 404 leave the table alone. Otherwise exactly that row goes, its day's total drops by its quantity, and the stock is pushed |
| `OrderStore.OrderService.ListRecent` | backend/server.js:358-383 | 401 without operator rights. Otherwise the result has min(number of orders, 200) distinct stored orders, newest first by creation second, and no order left out was created in a later second than a listed one |
| `OrderStore.OrderService.Newest` | backend/server.js:365 | Picks an order among the given ids with the latest creation second |
| `Client.PhoneDigits` | frontend/src/App.jsx:60 | The first eleven digits of the input: all digits, a prefix of the filtered input, as long as the input's digits up to 11 |
| `Client.FormatPhoneHint` | frontend/src/App.jsx:59-66 | The hint contains only digits and dashes. It has no dash for up to 3 digits, one after the 3rd digit for 4 to 7 digits, and dashes after the 3rd and 7th digits for 8 to 11 |
| `Client.DigitsAroundDash` | frontend/src/App.jsx:63-65 | A dash contributes no digit |
| `Client.OneDashDigits` | frontend/src/App.jsx:63 | The 3-rest layout keeps every digit in order |
| `Client.TwoDashDigits` | frontend/src/App.jsx:65 | The 3-4-rest layout keeps every digit in order |
| `Client.FormatPhoneHintDigits` | frontend/src/App.jsx:59-66 | Removing the dashes from the hint gives exactly the first eleven digits of the input |
| `Client.FormatPhoneHintCanonical` | frontend/src/App.jsx:59-66 | Two inputs get the same hint exactly when their first eleven digits agree |
| `Client.FormatPhoneHintIdempotent` | frontend/src/App.jsx:59-66 | Formatting an already formatted number changes nothing |
| `Client.IsValidPhone` | frontend/src/App.jsx:68-71 | Exactly eleven digits once everything else is dropped, the first three being `010`; a valid number has at least eleven characters, so it is never the empty phone the server refuses |
| `Client.ValidPhoneFormatted` | frontend/src/App.jsx:68-71 | A valid number stays valid once formatted, and its hint is the 13-character `010-XXXX-XXXX` |
| `Client.LongPhoneValidOnceFormatted` | frontend/src/App.jsx:60 | A number with more than eleven digits fails the check, but its hint passes it, because the hint keeps only eleven digits |
| `Client.StatusClassName` | frontend/src/App.jsx:20-24 | `picked_up` gets "pill picked", `paid` gets "pill paid", and every other string gets "pill", in both directions |
| `Client.StatusClassNameDistinct` | frontend/src/App.jsx:20-24 | The server's three statuses get three different pills |
| `Client.Pow2` | frontend/src/App.jsx:139 | `2 ** n` is at least 1 |
| `Client.Pow2Monotone` | frontend/src/App.jsx:139 | `2 ** n` never decreases as `n` grows |
| `Client.ReconnectDelay` | frontend/src/App.jsx:139 | The wait is between one and thirty seconds |
| `Client.ReconnectDelayDoubles` | frontend/src/App.jsx:139 | The first wait is one second and each further one doubles, capped at thirty seconds |
| `Client.ReconnectDelayMonotone` | frontend/src/App.jsx:139 | More failures never shorten the wait |
| `Client.ReconnectDelaySaturates` | frontend/src/App.jsx:139 | From the sixth attempt on the wait is exactly thirty seconds, and not before |
| `Client.StockConnection.constructor` | frontend/src/App.jsx:96 | The retry count starts at 0 |
| `Client.StockConnection.OnOpen` | frontend/src/App.jsx:134-136 | An open connection resets the retry count to 0 |
| `Client.StockConnection.OnError` | frontend/src/App.jsx:137-142 | An error waits for the delay of the current count, then the count grows by one, so the next wait is no shorter |
| `Client.Coerce` | frontend/src/App.jsx:509 | The field's numeric value: a number is itself, a digit string its value, the empty box 0 |
| `Client.Decremented` | frontend/src/App.jsx:506-510 | The minus button lowers the quantity by one but never below 1 |
| `Client.Incremented` | frontend/src/App.jsx:548-552 | The plus button adds one to a number. On a string field, `+ 1` appends one character, the digit 1: the text grows by one and its value becomes ten times the old value plus one |
| `Client.Typed` | frontend/src/App.jsx:521-535 | Typing leaves the box empty exactly when no digit was typed; otherwise the box holds a number, the typed digits' value raised to at least 1 |
| `Client.Blurred` | frontend/src/App.jsx:536-542 | Leaving the box gives a number: 1 for an empty box or any value 0 (such as `"0"`), and the value itself when it is at least 1 |
| `Client.BlurredSettles` | frontend/src/App.jsx:536-542 | Blurring twice is blurring once, and a blurred quantity passes the server's positive-integer check |
| `Client.QuantityField.constructor` | frontend/src/App.jsx:80-84 | The form starts with one item |
| `Client.QuantityField.Decrement` | frontend/src/App.jsx:506-510 | The field becomes its decremented value and stays well formed |
| `Client.QuantityField.Increment` | frontend/src/App.jsx:548-552 | The field becomes its incremented value and stays well formed |
| `Client.QuantityField.Change` | frontend/src/App.jsx:521-535 | The field becomes the value of what was typed and stays well formed |
| `Client.QuantityField.Blur` | frontend/src/App.jsx:536-542 | The field becomes its blurred value, a number of at least 1 |
| `Client.IsSoldOut` | frontend/src/App.jsx:164-165 | The remaining stock is known and at most 0 |
| `Client.ExceedsRemaining` | frontend/src/App.jsx:166-167 | The remaining stock is known and the quantity's numeric value is larger |
| `Client.SubmitDisabled` | frontend/src/App.jsx:577 | The order button is disabled while loading, when sold out, or when the quantity exceeds the stock; `SubmitGate` states when it is enabled |
| `Client.SubmitGate` | frontend/src/App.jsx:164-167 | With a known remaining stock, the order button is enabled exactly when nothing is loading, some stock is left and the quantity fits in it |
| `Client.SubmitGateUnknownStock` | frontend/src/App.jsx:577 | Before the stock is known, only loading disables the button |
| `Client.EnabledSubmitFitsQuota` | frontend/src/App.jsx:577 | When the shown stock is the server's current remaining stock, a quantity the enabled button lets through also passes the server's quota check |
| `Client.EmptyQuantityReachesServer` | frontend/src/App.jsx:166-167 | An empty quantity box does not disable the button, and the server reads it as 0 |
| `Client.PaidChecked` | frontend/src/App.jsx:805-808 | The paid box is ticked exactly for `paid` and `picked_up` orders |
| `Client.PickupChecked` | frontend/src/App.jsx:821 | The picked-up box is ticked exactly for `picked_up` orders |
| `Client.PickupEnabled` | frontend/src/App.jsx:822-828 | The picked-up box can be used only when nothing is loading and the paid box is ticked |
| `Client.OfferedRoutes` | frontend/src/App.jsx:805-832 | A click flips one box, and nothing is offered while loading. Otherwise mark-paid is offered exactly when the paid box is unticked and mark-pending exactly when it is ticked. Mark-picked-up is offered exactly for a `paid` order and mark-not-picked-up exactly for a `picked_up` order |
| `Client.NoPendingToPickedUp` | frontend/src/App.jsx:822-828 | From `pending_payment` no click leads to `picked_up`; the only offer is mark-paid |
| `Client.OfferedRoutesChangeStatus` | frontend/src/App.jsx:805-832 | Every offered click moves the order to a status other than its current one |
| `Client.PickedUpCanReturnToPending` | frontend/src/App.jsx:805-814 | Unticking the paid box of a picked-up order sends it straight back to `pending_payment` |

## Left out

- SQLite, the SQL text and `db.serialize` are replaced by an in-memory map and an id counter.
- The local-time bucketing by `date(created_at, 'localtime')` is not modelled. Each order carries an abstract `day`, and `Submit` takes `now` and `today` as parameters.
- `OrderStore.OrderService.Submit`: the model assumes that the creation instant (`new Date()`) and the `date('now','localtime')` that `getTodayCount` evaluates after the `await` fall on the same local day, so one `today` serves both the quota check and the new row's `day`. A submission that straddles local midnight is checked against the new day's total but stored under the old day, which can then end above `DAILY_LIMIT`. The model's promise that no day other than `today` changes does not cover that case.
- `OrderStore.OrderService.Submit`: the quota is proved only for one handler at a time (a single writer). The real handler awaits `getTodayCount()` and then the INSERT without serialising requests. Two concurrent submissions can therefore both pass the check and oversell. Concurrency is not modelled.
- Express routing, CORS, environment variables and the JSON plumbing are left out. Configuration values are constructor parameters, and the default operator credentials are a constant. Responses are result datatypes.
- The 500 responses for storage failures are not modelled, because the in-memory table cannot fail. The best-effort `try` around a broadcast is not modelled either.
- The stock-stream transport (`res.write`, the response headers, the delivery of `close` events) is left out. Only the subscriber set, the remaining figure each subscriber receives, and the snapshot on connect are modelled.
- Base64 decoding (`Buffer.from(..., "base64")`) is a foreign call. It is the `decode` parameter.
- `Numbers.ToNumber`: covers decimal literals with an optional sign and fraction, and treats every other non-empty string as not an integer. JavaScript's `Number` also accepts `0x`, `0o` and `0b` literals, exponents and `Infinity`. A lookup code such as `0x1F` or `1e3` therefore finds an order in the server but is an invalid code in the model.
- Numbers are unbounded integers in the model, and `Numbers.ToNumber` reads decimals exactly. JavaScript first rounds to a double. So very large ids, quantities or digit runs (beyond 2^53) are not modelled. Neither are fractions that round to an integer: `Number("12.0000000000000001")` is 12, so the server finds order 12 for that lookup code or path id, while the model answers with an invalid code or id. A `DAILY_LIMIT` that is not a number is not modelled either.
- Request fields are strings in the model. A JSON body whose `phone` or `depositorName` is a number, array or object is not modelled, nor is a query parameter given twice.
- `OrderStore.OrderService.ListRecent`: `createdAt` holds the creation time in whole seconds, because `datetime(created_at)` truncates the millisecond timestamp before comparing. Rows created in the same second are tied, and the model leaves the order of ties open. The milliseconds of the stored `created_at` string are not modelled.
- `randomDepositorName` (randomness), `formatPrice` (`Intl.NumberFormat`), the price arithmetic, the status labels and all React state, effects, `fetch`, `EventSource`, timers and rendering are left out. The client helpers listed above are what is kept.
- The operator checkboxes offer `picked_up → pending_payment` by unticking the paid box (`Client.PickedUpCanReturnToPending`). This skips `paid`: the checkboxes otherwise never move an order between `picked_up` and `pending_payment` directly. The model states this as the code does it.

=== FILE: client.dfy ===
/**
 * The web client's input normalisation and UI gating: the phone hint
 * formatter and validator, the status pill class, the stock-stream
 * reconnect back-off, the quantity field's handlers, the submit gate, and
 * the operator's paid / picked-up checkboxes.
 */
module Client {
  import opened Wrappers
  import opened Numbers
  import opened Orders

  function Min(a: int, b: int): int {
    if a <= b then a else b
  }

  // ---------------------------------------------------------------------
  // Phone numbers

  /** `value.replace(/[^0-9]/g, "").slice(0, 11)`: the first eleven ASCII digits. */
  function PhoneDigits(v: string): (d: string)
    ensures AllDigits(d) && |d| == Min(11, |Digits(v)|)
    ensures d == Digits(v)[..|d|]
  {
    var all := Digits(v);
    if |all| <= 11 then all else all[..11]
  }

  /** Where `formatPhoneHint` puts its dashes, for a given number of digits. */
  function DashPositions(n: nat): set<nat> {
    if n <= 3 then {} else if n <= 7 then {3} else {3, 8}
  }

  /**
   * `formatPhoneHint`: the first eleven digits, grouped 3-4-rest with a
   * dash after the third and the seventh digit when there are that many.
   */
  function FormatPhoneHint(v: string): (r: string)
    ensures forall i :: 0 <= i < |r| ==> IsDigit(r[i]) || r[i] == '-'
    ensures forall i :: 0 <= i < |r| ==> (r[i] == '-' <==> i in DashPositions(|PhoneDigits(v)|))
    ensures |r| == |PhoneDigits(v)| + |DashPositions(|PhoneDigits(v)|)|
  {
    var d := PhoneDigits(v);
    if |d| <= 3 then d
    else if |d| <= 7 then d[..3] + "-" + d[3..]
    else d[..3] + "-" + d[3..7] + "-" + d[7..]
  }

  lemma DigitsAroundDash(a: string, b: string)
    ensures Digits(a + "-" + b) == Digits(a) + Digits(b)
  {
    DigitsAppend(a + "-", b);
    DigitsAppend(a, "-");
    assert Digits("-") == "";
  }

  lemma OneDashDigits(d: string)
    requires AllDigits(d) && 3 <= |d|
    ensures Digits(d[..3] + "-" + d[3..]) == d
  {
    DigitsAroundDash(d[..3], d[3..]);
    DigitsOfDigits(d[..3]);
    DigitsOfDigits(d[3..]);
    assert d[..3] + d[3..] == d;
  }

  lemma TwoDashDigits(d: string)
    requires AllDigits(d) && 7 <= |d|
    ensures Digits(d[..3] + "-" + d[3..7] + "-" + d[7..]) == d
  {
    DigitsAroundDash(d[..3] + "-" + d[3..7], d[7..]);
    OneDashDigits(d[..7]);
    assert d[..7][..3] == d[..3] && d[..7][3..] == d[3..7];
    DigitsOfDigits(d[7..]);
    assert d[..7] + d[7..] == d;
  }

  /** Removing the dashes from the hint gives back exactly the first eleven digits of the input. */
  lemma FormatPhoneHintDigits(v: string)
    ensures Digits(FormatPhoneHint(v)) == PhoneDigits(v)
  {
    var d := PhoneDigits(v);
    if |d| <= 3 {
      DigitsOfDigits(d);
    } else if |d| <= 7 {
      OneDashDigits(d);
    } else {
      TwoDashDigits(d);
    }
  }

  /** Two inputs get the same hint exactly when their first eleven digits agree. */
  lemma FormatPhoneHintCanonical(u: string, v: string)
    ensures FormatPhoneHint(u) == FormatPhoneHint(v) <==> PhoneDigits(u) == PhoneDigits(v)
  {
    FormatPhoneHintDigits(u);
    FormatPhoneHintDigits(v);
  }

  /** Formatting an already formatted value changes nothing. */
  lemma FormatPhoneHintIdempotent(v: string)
    ensures FormatPhoneHint(FormatPhoneHint(v)) == FormatPhoneHint(v)
  {
    var r := FormatPhoneHint(v);
    FormatPhoneHintDigits(v);
    assert PhoneDigits(r) == PhoneDigits(v);
    FormatPhoneHintCanonical(r, v);
  }

  /** `isValidPhone`: exactly eleven digits once everything else is dropped, starting with 010. */
  predicate IsValidPhone(v: string)
    ensures IsValidPhone(v) ==> |v| >= 11
  {
    var d := Digits(v);
    |d| == 11 && d[..3] == "010"
  }

  /** A valid number stays valid once formatted, and its hint is the 13-character `010-XXXX-XXXX`. */
  lemma ValidPhoneFormatted(v: string)
    requires IsValidPhone(v)
    ensures IsValidPhone(FormatPhoneHint(v))
    ensures |FormatPhoneHint(v)| == 13
    ensures FormatPhoneHint(v)[..4] == "010-" && FormatPhoneHint(v)[8] == '-'
  {
    FormatPhoneHintDigits(v);
    var r := FormatPhoneHint(v);
    assert DashPositions(11) == {3, 8};
    assert |{3, 8}| == 2;
    assert r == Digits(v)[..3] + "-" + Digits(v)[3..7] + "-" + Digits(v)[7..];
  }

  /**
   * The hint keeps only the first eleven digits, so a number with more
   * digits that `isValidPhone` refuses becomes valid once formatted.
   */
  lemma LongPhoneValidOnceFormatted(v: string)
    requires |Digits(v)| > 11 && Digits(v)[..3] == "010"
    ensures !IsValidPhone(v) && IsValidPhone(FormatPhoneHint(v))
  {
    FormatPhoneHintDigits(v);
    var d := Digits(FormatPhoneHint(v));
    assert d == Digits(v)[..11];
    assert d[..3] == Digits(v)[..3];
  }

  // ---------------------------------------------------------------------
  // Status pill

  /** `statusClassName`: the CSS class of an order's status pill. */
  function StatusClassName(status: string): (c: string)
    ensures c == "pill picked" <==> status == "picked_up"
    ensures c == "pill paid" <==> status == "paid"
    ensures c == "pill" <==> status != "picked_up" && status != "paid"
  {
    if status == "picked_up" then "pill picked"
    else if status == "paid" then "pill paid"
    else "pill"
  }

  /** Each of the server's three statuses gets its own pill. */
  lemma StatusClassNameDistinct(s: Status, t: Status)
    requires s != t
    ensures StatusClassName(StatusName(s)) != StatusClassName(StatusName(t))
  {
  }

  // ---------------------------------------------------------------------
  // Stock-stream reconnect back-off

  function Pow2(n: nat): (p: nat)
    ensures p >= 1
  {
    if n == 0 then 1 else 2 * Pow2(n - 1)
  }

  lemma {:induction false} Pow2Monotone(m: nat, n: nat)
    requires m <= n
    ensures Pow2(m) <= Pow2(n)
    decreases n
  {
    if m < n {
      Pow2Monotone(m, n - 1);
    }
  }

  const MAX_RETRY_DELAY := 30000
  const BASE_RETRY_DELAY := 1000

  /** `Math.min(30000, 1000 * 2 ** n)`: milliseconds to wait before reconnect attempt `n`. */
  function ReconnectDelay(n: nat): (d: nat)
    ensures BASE_RETRY_DELAY <= d <= MAX_RETRY_DELAY
  {
    Min(MAX_RETRY_DELAY, BASE_RETRY_DELAY * Pow2(n))
  }

  /** The first retry waits one second, and each further one waits twice as long until the cap. */
  lemma ReconnectDelayDoubles(n: nat)
    ensures ReconnectDelay(0) == BASE_RETRY_DELAY
    ensures ReconnectDelay(n + 1) == Min(MAX_RETRY_DELAY, 2 * ReconnectDelay(n))
  {
  }

  /** More failures never shorten the wait. */
  lemma ReconnectDelayMonotone(m: nat, n: nat)
    requires m <= n
    ensures ReconnectDelay(m) <= ReconnectDelay(n)
  {
    Pow2Monotone(m, n);
  }

  /** From the sixth attempt on the wait is the 30-second cap. */
  lemma ReconnectDelaySaturates(n: nat)
    requires n >= 5
    ensures ReconnectDelay(n) == MAX_RETRY_DELAY
    ensures ReconnectDelay(4) < MAX_RETRY_DELAY
  {
    Pow2Monotone(5, n);
    assert Pow2(5) == 32;
    assert Pow2(4) == 16;
  }

  /** The retry counter behind the stock stream's reconnect timer. */
  class StockConnection {
    var retryCount: nat

    constructor ()
      ensures retryCount == 0
    {
      retryCount := 0;
    }

    /** `onopen`: a connection that opens resets the counter. */
    method OnOpen()
      modifies this
      ensures retryCount == 0
    {
      retryCount := 0;
    }

    /** `onerror`: the wait before the next attempt uses the current count, which then grows by one. */
    method OnError() returns (delay: nat)
      modifies this
      ensures delay == ReconnectDelay(old(retryCount))
      ensures retryCount == old(retryCount) + 1
      ensures old(retryCount) < retryCount && delay <= ReconnectDelay(retryCount)
    {
      delay := ReconnectDelay(retryCount);
      retryCount := retryCount + 1;
      ReconnectDelayMonotone(retryCount - 1, retryCount);
    }
  }

  // ---------------------------------------------------------------------
  // Quantity field

  /** The field holds a number, or a string when the box is empty or was incremented while empty. */
  datatype FieldValue = Num(n: int) | Str(s: string)

  /** The values the handlers produce: a number of at least 1, or a string of digits. */
  predicate FieldOk(f: FieldValue) {
    match f
    case Num(n) => n >= 1
    case Str(s) => AllDigits(s)
  }

  /**
   * JavaScript's numeric coercion of the field (`prev.quantity - 1`,
   * `Math.max(1, prev.quantity)`, `quantity > remaining` and the server's
   * `Number(quantity)` all apply it): a number is itself, a digit string its
   * value, the empty string 0.
   */
  function Coerce(f: FieldValue): (r: NumberValue)
    ensures FieldOk(f) ==> r.Int? && r.value >= 0
    ensures FieldOk(f) && f.Num? ==> r.value == f.n
    ensures FieldOk(f) && f.Str? ==> r.value == DigitsValue(f.s)
  {
    match f
    case Num(n) => Int(n)
    case Str(s) =>
      if s != [] && AllDigits(s) then
        DigitStringToNumber(s);
        ToNumber(s)
      else ToNumber(s)
  }

  /** The `-` button: one less, but never below 1. */
  function Decremented(f: FieldValue): (g: FieldValue)
    requires FieldOk(f)
    ensures g.Num? && g.n >= 1
    ensures Coerce(f).value >= 2 ==> g.n == Coerce(f).value - 1
    ensures Coerce(f).value < 2 ==> g.n == 1
  {
    Num(Max(1, Coerce(f).value - 1))
  }

  /** The `+` button: `prev.quantity + 1`, which appends the digit 1 when the field holds a string. */
  function Incremented(f: FieldValue): (g: FieldValue)
    requires FieldOk(f)
    ensures FieldOk(g)
    ensures f.Num? ==> g.Num? && g.n == f.n + 1
    ensures f.Str? ==> g.Str? && |g.s| == |f.s| + 1 && Coerce(g).value == 10 * Coerce(f).value + 1
  {
    match f
    case Num(n) => Num(n + 1)
    case Str(s) => Str(s + "1")
  }

  /** Typing: the digits of what was typed, kept empty when there are none, otherwise at least 1. */
  function Typed(input: string): (g: FieldValue)
    ensures FieldOk(g)
    ensures g == Str("") <==> Digits(input) == ""
    ensures Digits(input) != "" ==> g.Num?
    ensures g.Num? ==> g.n >= 1
    ensures g.Num? && DigitsValue(Digits(input)) >= 1 ==> g.n == DigitsValue(Digits(input))
    ensures g.Num? && DigitsValue(Digits(input)) == 0 ==> g.n == 1
  {
    var digits := Digits(input);
    if digits == "" then Str("")
    else
      DigitStringToNumber(digits);
      Num(Max(1, ToNumber(digits).value))
  }

  /** Leaving the box: an empty box becomes 1 and anything else is raised to at least 1. */
  function Blurred(f: FieldValue): (g: FieldValue)
    requires FieldOk(f)
    ensures g.Num? && g.n >= 1
    ensures f == Str("") ==> g.n == 1
    ensures Coerce(f).value == 0 ==> g.n == 1
    ensures Coerce(f).value >= 1 ==> g.n == Coerce(f).value
  {
    if f == Str("") then Num(1) else Num(Max(1, Coerce(f).value))
  }

  /** Blurring twice is blurring once, and a blurred field passes the server's quantity check. */
  lemma BlurredSettles(f: FieldValue)
    requires FieldOk(f)
    ensures Blurred(Blurred(f)) == Blurred(f)
    ensures Coerce(Blurred(f)).Int? && Coerce(Blurred(f)).value > 0
  {
  }

  /** `orderForm.quantity`, updated in place by the field's handlers. */
  class QuantityField {
    var value: FieldValue

    ghost predicate Valid()
      reads this
    {
      FieldOk(value)
    }

    /** The form starts with one item. */
    constructor ()
      ensures Valid() && value == Num(1)
    {
      value := Num(1);
    }

    method Decrement()
      requires Valid()
      modifies this
      ensures Valid() && value == Decremented(old(value))
    {
      value := Decremented(value);
    }

    method Increment()
      requires Valid()
      modifies this
      ensures Valid() && value == Incremented(old(value))
    {
      value := Incremented(value);
    }

    method Change(input: string)
      requires Valid()
      modifies this
      ensures Valid() && value == Typed(input)
    {
      value := Typed(input);
    }

    method Blur()
      requires Valid()
      modifies this
      ensures Valid() && value == Blurred(old(value))
    {
      value := Blurred(value);
    }
  }

  // ---------------------------------------------------------------------
  // Submit gate

  /** `isSoldOut`: the last known remaining stock is a number and is at most 0. */
  predicate IsSoldOut(remaining: Option<int>) {
    remaining.Some? && remaining.value <= 0
  }

  /** `exceedsRemaining`: the requested quantity is more than the known remaining stock. */
  predicate ExceedsRemaining(remaining: Option<int>, quantity: FieldValue)
    requires FieldOk(quantity)
  {
    remaining.Some? && Coerce(quantity).value > remaining.value
  }

  /** The order button's `disabled`. */
  predicate SubmitDisabled(loading: bool, remaining: Option<int>, quantity: FieldValue)
    requires FieldOk(quantity)
  {
    loading || IsSoldOut(remaining) || ExceedsRemaining(remaining, quantity)
  }

  /** With a known remaining stock the button is enabled exactly when nothing is loading, stock is left and the quantity fits. */
  lemma SubmitGate(loading: bool, r: int, quantity: FieldValue)
    requires FieldOk(quantity)
    ensures !SubmitDisabled(loading, Some(r), quantity) <==>
      !loading && 0 < r && Coerce(quantity).value <= r
  {
  }

  /** Before the stock is known only loading disables the button. */
  lemma SubmitGateUnknownStock(loading: bool, quantity: FieldValue)
    requires FieldOk(quantity)
    ensures SubmitDisabled(loading, None, quantity) <==> loading
  {
  }

  /**
   * When the stock the client shows is the server's current remaining
   * stock, a quantity the enabled button lets through also passes the
   * server's quota check.
   */
  lemma EnabledSubmitFitsQuota(limit: int, total: int, quantity: FieldValue)
    requires FieldOk(quantity)
    requires !SubmitDisabled(false, Some(Remaining(limit, total)), quantity)
    ensures total + Coerce(quantity).value <= limit
  {
  }

  /**
   * An empty quantity box counts as 0 against the stock, so it never
   * disables the button, and the server's `Number("")` is 0, which its
   * quantity check refuses.
   */
  lemma EmptyQuantityReachesServer(r: int)
    requires r > 0
    ensures !SubmitDisabled(false, Some(r), Str(""))
    ensures Coerce(Str("")) == Int(0)
  {
  }

  // ---------------------------------------------------------------------
  // Operator checkboxes

  /** The paid box is ticked for paid and picked-up orders. */
  predicate PaidChecked(status: string) {
    status == "paid" || status == "picked_up"
  }

  predicate PickupChecked(status: string) {
    status == "picked_up"
  }

  /** The picked-up box can only be used once the order counts as paid. */
  predicate PickupEnabled(loading: bool, status: string) {
    !loading && PaidChecked(status)
  }

  /** The routes a click on one of the two boxes can call: a click flips the box. */
  function OfferedRoutes(loading: bool, status: string): (routes: set<StatusRoute>)
    ensures loading ==> routes == {}
    ensures MarkPaid in routes <==> !loading && !PaidChecked(status)
    ensures MarkPending in routes <==> !loading && PaidChecked(status)
    ensures MarkPickedUp in routes <==> !loading && status == "paid"
    ensures MarkNotPickedUp in routes <==> !loading && status == "picked_up"
  {
    var paidBox := if loading then {} else if PaidChecked(status) then {MarkPending} else {MarkPaid};
    var pickupBox :=
      if !PickupEnabled(loading, status) then {}
      else if PickupChecked(status) then {MarkNotPickedUp} else {MarkPickedUp};
    paidBox + pickupBox
  }

  /** From `pending_payment` no click leads to `picked_up`: the order must be marked paid first. */
  lemma NoPendingToPickedUp(loading: bool)
    ensures forall route :: route in OfferedRoutes(loading, StatusName(PendingPayment)) ==> Target(route) != PickedUp
    ensures !loading ==> OfferedRoutes(loading, StatusName(PendingPayment)) == {MarkPaid}
  {
  }

  /** Every click moves an order to a status other than the one it has. */
  lemma OfferedRoutesChangeStatus(loading: bool, s: Status)
    ensures forall route :: route in OfferedRoutes(loading, StatusName(s)) ==> Target(route) != s
  {
  }

  /** Unticking the paid box of a picked-up order sends it straight back to `pending_payment`. */
  lemma PickedUpCanReturnToPending()
    ensures MarkPending in OfferedRoutes(false, StatusName(PickedUp))
    ensures Target(MarkPending) == PendingPayment
  {
  }
}

=== FILE: collections.dfy ===
/** Facts about Dafny's finite collections that the model's proofs lean on. */
module Collections {

  /** A set of ids that is not empty has a member to pick. */
  lemma SetHasMember(s: set<int>)
    ensures s == {} || exists x :: x in s
  {
    assert (forall x :: x !in s) ==> s == {};
  }
}

=== FILE: numbers.dfy ===
/**
 * Text-to-number helpers shared by the server and the web client: ASCII
 * digits, the decimal rendering of an id, the value of a digit string, the
 * `replace(/[^0-9]/g, "")` digit filter, and the part of JavaScript's
 * `Number(string)` conversion that the order system relies on.
 */
module Numbers {

  predicate IsDigit(c: char) {
    '0' <= c <= '9'
  }

  predicate AllDigits(s: string) {
    forall i :: 0 <= i < |s| ==> IsDigit(s[i])
  }

  predicate AllZeros(s: string) {
    forall i :: 0 <= i < |s| ==> s[i] == '0'
  }

  function DigitValue(c: char): (d: nat)
    requires IsDigit(c)
    ensures d < 10
  {
    (c as int) - ('0' as int)
  }

  function DigitChar(d: nat): (c: char)
    requires d < 10
    ensures IsDigit(c) && DigitValue(c) == d
  {
    ('0' as int + d) as char
  }

  /** `String(n)` for a non-negative integer: its decimal digits, no leading zero. */
  function NatToString(n: nat): (s: string)
    ensures 1 <= |s| && AllDigits(s)
    ensures s[0] == '0' <==> n == 0
    ensures n == 0 ==> s == "0"
    decreases n
  {
    if n < 10 then [DigitChar(n)] else NatToString(n / 10) + [DigitChar(n % 10)]
  }

  /** The value of a string of decimal digits, read most significant first. */
  function DigitsValue(s: string): nat
    requires AllDigits(s)
  {
    if s == [] then 0 else 10 * DigitsValue(s[..|s| - 1]) + DigitValue(s[|s| - 1])
  }

  lemma {:induction false} NatToStringValue(n: nat)
    ensures DigitsValue(NatToString(n)) == n
    decreases n
  {
    if n >= 10 {
      var s := NatToString(n);
      assert s[..|s| - 1] == NatToString(n / 10);
      NatToStringValue(n / 10);
    }
  }

  /** Leading zeros do not change the value of a digit string. */
  lemma {:induction false} LeadingZerosValue(z: string, s: string)
    requires AllZeros(z) && AllDigits(s)
    ensures AllDigits(z + s)
    ensures DigitsValue(z + s) == DigitsValue(s)
    decreases |s|
  {
    if s == [] {
      assert z + s == z;
      ZerosValue(z);
    } else {
      var t := z + s;
      assert t[..|t| - 1] == z + s[..|s| - 1];
      LeadingZerosValue(z, s[..|s| - 1]);
    }
  }

  lemma {:induction false} ZerosValue(z: string)
    requires AllZeros(z)
    ensures AllDigits(z) && DigitsValue(z) == 0
    decreases |z|
  {
    if z != [] {
      ZerosValue(z[..|z| - 1]);
    }
  }

  /** Two digit strings of the same length and value are the same string. */
  lemma {:induction false} DigitsValueInjective(s: string, t: string)
    requires AllDigits(s) && AllDigits(t) && |s| == |t|
    requires DigitsValue(s) == DigitsValue(t)
    ensures s == t
    decreases |s|
  {
    if s != [] {
      var n := |s|;
      assert DigitValue(s[n - 1]) == DigitValue(t[n - 1]);
      DigitsValueInjective(s[..n - 1], t[..n - 1]);
      assert s == s[..n - 1] + [s[n - 1]];
      assert t == t[..n - 1] + [t[n - 1]];
    }
  }

  /** The length of the longest prefix of `s` made of digits. */
  function DigitRunLength(s: string): (n: nat)
    ensures n <= |s| && AllDigits(s[..n])
    ensures n < |s| ==> !IsDigit(s[n])
  {
    if s == [] || !IsDigit(s[0]) then 0
    else
      var k := DigitRunLength(s[1..]);
      assert s[..k + 1] == [s[0]] + s[1..][..k];
      k + 1
  }

  lemma {:induction false} DigitRunOfDigits(s: string)
    requires AllDigits(s)
    ensures DigitRunLength(s) == |s|
  {
  }

  /** `s.replace(/[^0-9]/g, "")`: the ASCII digits of `s`, in order. */
  function Digits(s: string): (d: string)
    ensures AllDigits(d) && |d| <= |s|
    ensures s != [] && IsDigit(s[0]) ==> d != [] && d[0] == s[0]
  {
    if s == [] then []
    else if IsDigit(s[0]) then [s[0]] + Digits(s[1..])
    else Digits(s[1..])
  }

  lemma {:induction false} DigitsAppend(a: string, b: string)
    ensures Digits(a + b) == Digits(a) + Digits(b)
    decreases |a|
  {
    if a == [] {
      assert a + b == b;
    } else {
      assert (a + b)[0] == a[0] && (a + b)[1..] == a[1..] + b;
      DigitsAppend(a[1..], b);
    }
  }

  /** A string without digits filters to nothing. */
  lemma {:induction false} DigitsOfNonDigits(s: string)
    requires forall i :: 0 <= i < |s| ==> !IsDigit(s[i])
    ensures Digits(s) == []
    decreases |s|
  {
    if s != [] {
      assert !IsDigit(s[0]);
      DigitsOfNonDigits(s[1..]);
    }
  }

  lemma {:induction false} DigitsOfDigits(s: string)
    requires AllDigits(s)
    ensures Digits(s) == s
    decreases |s|
  {
    if s != [] {
      DigitsOfDigits(s[1..]);
    }
  }

  /** The characters JavaScript's `String.prototype.trim` removes (white space and line terminators). */
  predicate IsJsSpace(c: char) {
    c == '\t' || c == '\n' || c == '\U{0B}' || c == '\U{0C}' || c == '\r' || c == ' ' ||
    c == '\U{A0}' || c == '\U{1680}' || ('\U{2000}' <= c <= '\U{200A}') ||
    c == '\U{2028}' || c == '\U{2029}' || c == '\U{202F}' || c == '\U{205F}' ||
    c == '\U{3000}' || c == '\U{FEFF}'
  }

  function TrimStart(s: string): (t: string)
    ensures |t| <= |s| && t == s[|s| - |t|..]
    ensures forall i :: 0 <= i < |s| - |t| ==> IsJsSpace(s[i])
    ensures t != [] ==> !IsJsSpace(t[0])
  {
    if s != [] && IsJsSpace(s[0]) then TrimStart(s[1..]) else s
  }

  function TrimEnd(s: string): (t: string)
    ensures |t| <= |s| && t == s[..|t|]
    ensures forall i :: |t| <= i < |s| ==> IsJsSpace(s[i])
    ensures t != [] ==> !IsJsSpace(t[|t| - 1])
  {
    if s != [] && IsJsSpace(s[|s| - 1]) then TrimEnd(s[..|s| - 1]) else s
  }

  /** The outcome of `Number(x)` as far as `Number.isInteger` is concerned. */
  datatype NumberValue = Int(value: int) | NonInt

  /**
   * `Number(s)` for a string: surrounding white space is ignored, an empty
   * string is 0, and a decimal literal with an optional sign and an
   * optional fraction is an integer exactly when its fraction digits are all
   * zeros.
   */
  function ToNumber(s: string): NumberValue {
    var t := TrimEnd(TrimStart(s));
    if t == [] then Int(0)
    else if t[0] == '-' then
      match UnsignedDecimal(t[1..])
      case Int(v) => Int(-v)
      case NonInt => NonInt
    else if t[0] == '+' then UnsignedDecimal(t[1..])
    else UnsignedDecimal(t)
  }

  /** `digits [ "." digits ]` or `"." digits`, without sign or exponent. */
  function UnsignedDecimal(b: string): (r: NumberValue)
    ensures r.Int? ==> r.value >= 0
  {
    var i := DigitRunLength(b);
    if i == |b| then
      (if i == 0 then NonInt else Int(DigitsValue(b)))
    else if b[i] == '.' && AllDigits(b[i + 1..]) && (i > 0 || i + 1 < |b|) then
      (if AllZeros(b[i + 1..]) then Int(DigitsValue(b[..i])) else NonInt)
    else NonInt
  }

  /** A string of digits converts to the number it spells, leading zeros included. */
  lemma DigitStringToNumber(s: string)
    requires s != [] && AllDigits(s)
    ensures ToNumber(s) == Int(DigitsValue(s))
  {
    assert TrimStart(s) == s by {
      assert !IsJsSpace(s[0]);
    }
    assert TrimEnd(s) == s by {
      assert !IsJsSpace(s[|s| - 1]);
    }
    assert s[0] != '-' && s[0] != '+';
    DigitRunOfDigits(s);
    assert UnsignedDecimal(s) == Int(DigitsValue(s));
  }

  lemma NatToStringToNumber(n: nat)
    ensures ToNumber(NatToString(n)) == Int(n)
  {
    DigitStringToNumber(NatToString(n));
    NatToStringValue(n);
  }
}

=== FILE: orders.dfy ===
/**
 * The pure side of the order server: the order record and its status, the
 * human-facing order code and its parser, the operator check, the
 * remaining-stock formula and the committed quantity of a day.
 */
module Orders {
  import opened Numbers
  import opened Wrappers
  import opened Collections

  /** The three values the server ever writes into an order's status column. */
  datatype Status = PendingPayment | Paid | PickedUp

  function StatusName(s: Status): (name: string)
    ensures name != []
    ensures s == PendingPayment <==> name == "pending_payment"
    ensures s == Paid <==> name == "paid"
    ensures s == PickedUp <==> name == "picked_up"
  {
    match s
    case PendingPayment => "pending_payment"
    case Paid => "paid"
    case PickedUp => "picked_up"
  }

  lemma StatusNameInjective(s: Status, t: Status)
    requires StatusName(s) == StatusName(t)
    ensures s == t
  {
  }

  /** The four operator routes that overwrite an order's status. */
  datatype StatusRoute = MarkPaid | MarkPending | MarkPickedUp | MarkNotPickedUp

  /** The status each route writes, whatever the order's current status. */
  function Target(route: StatusRoute): (s: Status)
    ensures s == PickedUp <==> route == MarkPickedUp
    ensures s == PendingPayment <==> route == MarkPending
  {
    match route
    case MarkPaid => Paid
    case MarkPending => PendingPayment
    case MarkPickedUp => PickedUp
    case MarkNotPickedUp => Paid
  }

  /**
   * One row of the orders table. `name` is "" when the customer gave none;
   * `createdAt` is the creation time in whole seconds, the key
   * `datetime(created_at)` compares when listing, and `day` its local
   * calendar day, used for the daily quota.
   */
  datatype Order = Order(
    id: int,
    name: string,
    phone: string,
    quantity: int,
    pickupSlot: string,
    depositorName: string,
    status: Status,
    createdAt: int,
    day: int)

  /** The pickup time stored in every order's pickup slot. */
  const PICKUP_TIME: string := "매일 15:00-20:00"

  const CODE_PREFIX: string := "DUBAI-"

  /** The admin listing returns at most this many orders. */
  const ADMIN_LIST_LIMIT: nat := 200

  function Max(a: int, b: int): int {
    if a < b then b else a
  }

  /** `s.padStart(width, "0")`. */
  function PadZeros(s: string, width: nat): (r: string)
    ensures |r| == Max(width, |s|)
    ensures r[|r| - |s|..] == s && AllZeros(r[..|r| - |s|])
  {
    if |s| >= width then s else seq(width - |s|, _ => '0') + s
  }

  /** `toOrderCode`: the prefix, then the decimal id padded with zeros to four characters. */
  function OrderCode(id: nat): (code: string)
    ensures |code| == |CODE_PREFIX| + Max(4, |NatToString(id)|)
    ensures code[..|CODE_PREFIX|] == CODE_PREFIX
    ensures code[|code| - |NatToString(id)|..] == NatToString(id)
    ensures AllZeros(code[|CODE_PREFIX|..|code| - |NatToString(id)|])
  {
    var padded := PadZeros(NatToString(id), 4);
    assert (CODE_PREFIX + padded)[|CODE_PREFIX|..] == padded;
    CODE_PREFIX + padded
  }

  /** Upper case for ASCII letters only, as a case-insensitive regular expression without the `u` flag compares. */
  function AsciiUpper(c: char): char {
    if 'a' <= c <= 'z' then (c as int - 32) as char else c
  }

  predicate EqualsIgnoringCase(a: string, b: string) {
    |a| == |b| && forall i :: 0 <= i < |a| ==> AsciiUpper(a[i]) == AsciiUpper(b[i])
  }

  /** `/DUBAI-(\d+)/i` matches at position `i` of `s`. */
  predicate CodeMatchAt(s: string, i: nat) {
    i + |CODE_PREFIX| < |s| &&
    EqualsIgnoringCase(s[i..i + |CODE_PREFIX|], CODE_PREFIX) &&
    IsDigit(s[i + |CODE_PREFIX|])
  }

  /** `i` is the first position at or after `from` where the pattern matches. */
  predicate LeftmostMatch(s: string, from: nat, i: nat) {
    from <= i && CodeMatchAt(s, i) && forall j :: from <= j < i ==> !CodeMatchAt(s, j)
  }

  /** The digits `\d+` takes after a match at `i`: the whole run of digits that follows the prefix. */
  function CodeRun(s: string, i: nat): (d: string)
    requires CodeMatchAt(s, i)
    ensures d != [] && AllDigits(d) && i + |CODE_PREFIX| + |d| <= |s|
    ensures d == s[i + |CODE_PREFIX|..i + |CODE_PREFIX| + |d|]
    ensures i + |CODE_PREFIX| + |d| < |s| ==> !IsDigit(s[i + |CODE_PREFIX| + |d|])
  {
    var rest := s[i + |CODE_PREFIX|..];
    rest[..DigitRunLength(rest)]
  }

  /**
   * The captured digits of the leftmost match of `/DUBAI-(\d+)/i` at or after
   * `from`: the pattern is not anchored, and `\d+` takes every digit it can.
   */
  function CodeDigits(s: string, from: nat): (r: Option<string>)
    requires from <= |s|
    ensures r.Some? ==> r.value != [] && AllDigits(r.value)
    ensures r.None? <==> forall i :: from <= i <= |s| ==> !CodeMatchAt(s, i)
    ensures r.Some? ==>
      exists i :: LeftmostMatch(s, from, i) && r.value == CodeRun(s, i)
    decreases |s| - from
  {
    if from + |CODE_PREFIX| >= |s| then None
    else if CodeMatchAt(s, from) then
      assert LeftmostMatch(s, from, from);
      Some(CodeRun(s, from))
    else CodeDigits(s, from + 1)
  }

  /** The id a lookup extracts from its `code`: the captured digits if the pattern matches, `Number(code)` otherwise. */
  function ParseOrderCode(code: string): NumberValue {
    match CodeDigits(code, 0)
    case Some(d) => Int(DigitsValue(d))
    case None => ToNumber(code)
  }

  /**
   * The code of every id parses back to that id, whatever the letter case of
   * its prefix, and however many digits the id has.
   */
  lemma {:induction false} OrderCodeRoundTrip(prefix: string, id: nat)
    requires EqualsIgnoringCase(prefix, CODE_PREFIX)
    ensures ParseOrderCode(prefix + OrderCode(id)[|CODE_PREFIX|..]) == Int(id)
  {
    var digits := NatToString(id);
    var padded := OrderCode(id)[|CODE_PREFIX|..];
    var zeros := padded[..|padded| - |digits|];
    assert padded == zeros + digits;
    LeadingZerosValue(zeros, digits);
    NatToStringValue(id);
    assert DigitsValue(padded) == id;
    CodeDigitsAtPrefix(prefix, padded);
  }

  /** A case-insensitive prefix followed by digits only: the whole digit string is captured. */
  lemma CodeDigitsAtPrefix(prefix: string, digits: string)
    requires EqualsIgnoringCase(prefix, CODE_PREFIX)
    requires digits != [] && AllDigits(digits)
    ensures CodeDigits(prefix + digits, 0) == Some(digits)
  {
    var s := prefix + digits;
    assert s[0..|CODE_PREFIX|] == prefix;
    assert s[|CODE_PREFIX|] == digits[0];
    assert CodeMatchAt(s, 0);
    assert s[|CODE_PREFIX|..] == digits;
    DigitRunOfDigits(digits);
    assert digits[..|digits|] == digits;
  }

  /** In particular the code the server hands out parses back to the order's id. */
  lemma OrderCodeParses(id: nat)
    ensures ParseOrderCode(OrderCode(id)) == Int(id)
  {
    assert EqualsIgnoringCase(CODE_PREFIX, CODE_PREFIX);
    OrderCodeRoundTrip(CODE_PREFIX, id);
    assert CODE_PREFIX + OrderCode(id)[|CODE_PREFIX|..] == OrderCode(id);
  }

  /** A bare decimal id, without the prefix, is also accepted as the code. */
  lemma BareIdParses(id: nat)
    ensures ParseOrderCode(NatToString(id)) == Int(id)
  {
    NoCodeInDigits(NatToString(id));
    NatToStringToNumber(id);
  }

  /** The pattern needs a letter, so it never matches a string of digits. */
  lemma NoCodeInDigits(s: string)
    requires AllDigits(s)
    ensures CodeDigits(s, 0).None?
  {
    forall i | 0 <= i <= |s| ensures !CodeMatchAt(s, i) {
      if i + |CODE_PREFIX| < |s| {
        assert s[i..i + |CODE_PREFIX|][0] == s[i];
        assert AsciiUpper(s[i]) == s[i];
      }
    }
  }

  /** Distinct ids have distinct codes, so a code names one order. */
  lemma OrderCodeInjective(a: nat, b: nat)
    requires OrderCode(a) == OrderCode(b)
    ensures a == b
  {
    OrderCodeParses(a);
    OrderCodeParses(b);
  }

  // ---------------------------------------------------------------------
  // Operator check

  /** The configured operator token, user name and password. */
  datatype AdminConfig = AdminConfig(token: string, user: string, password: string)

  /** The values used when the environment sets none. */
  const DEFAULT_ADMIN: AdminConfig := AdminConfig("conik", "conik", "conik7897!")

  /**
   * The two request headers the check reads, "" when absent. `decode` stands
   * for the base64-to-UTF-8 conversion applied to the basic credentials.
   */
  datatype AdminHeaders = AdminHeaders(adminToken: string, authorization: string)

  const BASIC: string := "Basic "

  /** `s.split(":")`. */
  function Fields(s: string): (r: seq<string>)
    ensures 1 <= |r|
    ensures forall i :: 0 <= i < |r| ==> ':' !in r[i]
    decreases |s|
  {
    if ':' !in s then [s]
    else
      var i := IndexOfColon(s);
      [s[..i]] + Fields(s[i + 1..])
  }

  function IndexOfColon(s: string): (i: nat)
    requires ':' in s
    ensures i < |s| && s[i] == ':' && ':' !in s[..i]
  {
    if s[0] == ':' then 0
    else
      assert s == [s[0]] + s[1..];
      var j := IndexOfColon(s[1..]);
      assert s[..j + 1] == [s[0]] + s[1..][..j];
      j + 1
  }

  function JoinFields(parts: seq<string>): string
    requires 1 <= |parts|
  {
    if |parts| == 1 then parts[0] else parts[0] + ":" + JoinFields(parts[1..])
  }

  lemma {:induction false} FieldsJoin(s: string)
    ensures JoinFields(Fields(s)) == s
    decreases |s|
  {
    if ':' in s {
      var i := IndexOfColon(s);
      var parts := Fields(s);
      assert parts == [s[..i]] + Fields(s[i + 1..]);
      assert parts[0] == s[..i] && parts[1..] == Fields(s[i + 1..]);
      FieldsJoin(s[i + 1..]);
      assert JoinFields(parts) == s[..i] + ":" + s[i + 1..];
      assert s == s[..i] + ":" + s[i + 1..];
    }
  }

  /** `isAdmin`: a matching non-empty token header, or basic credentials whose first two fields match. */
  predicate IsAdmin(cfg: AdminConfig, h: AdminHeaders, decode: string -> string) {
    (h.adminToken != "" && h.adminToken == cfg.token) ||
    (|h.authorization| >= |BASIC| && h.authorization[..|BASIC|] == BASIC &&
     var parts := Fields(decode(h.authorization[|BASIC|..]));
     parts[0] == cfg.user && |parts| >= 2 && parts[1] == cfg.password)
  }

  /** The first two fields of `user:rest` are the user and the text of `rest` up to its first colon. */
  lemma {:induction false} FieldsOfPair(user: string, rest: string)
    requires ':' !in user
    ensures |Fields(user + ":" + rest)| >= 2
    ensures Fields(user + ":" + rest)[0] == user
    ensures Fields(user + ":" + rest)[1] == Fields(rest)[0]
  {
    var s := user + ":" + rest;
    assert s[|user|] == ':';
    assert s[..|user|] == user;
    var i := IndexOfColon(s);
    assert s[..i] == user && s[i + 1..] == rest;
  }

  /**
   * Basic credentials `user:password` (neither containing a colon) are
   * accepted exactly when both match the configuration, or the token header
   * already matches.
   */
  lemma BasicCredentials(cfg: AdminConfig, token: string, encoded: string, decode: string -> string, user: string, password: string)
    requires decode(encoded) == user + ":" + password
    requires ':' !in user && ':' !in password
    ensures IsAdmin(cfg, AdminHeaders(token, BASIC + encoded), decode) <==>
            (token != "" && token == cfg.token) || (user == cfg.user && password == cfg.password)
  {
    var auth := BASIC + encoded;
    assert auth[..|BASIC|] == BASIC && auth[|BASIC|..] == encoded;
    FieldsOfPair(user, password);
    assert Fields(password) == [password];
  }

  /**
   * Out of the box an operator gets in with the token `conik`, or with basic
   * credentials that decode to `conik:conik7897!`.
   */
  lemma DefaultCredentials(encoded: string, decode: string -> string)
    requires decode(encoded) == "conik:conik7897!"
    ensures IsAdmin(DEFAULT_ADMIN, AdminHeaders("conik", ""), decode)
    ensures IsAdmin(DEFAULT_ADMIN, AdminHeaders("", BASIC + encoded), decode)
  {
    assert "conik:conik7897!" == "conik" + ":" + "conik7897!";
    BasicCredentials(DEFAULT_ADMIN, "", encoded, decode, "conik", "conik7897!");
  }

  /**
   * A configured password that contains a colon can never be matched by basic
   * credentials: the second field of the decoded text never holds a colon.
   */
  lemma ColonPasswordNeverMatches(cfg: AdminConfig, h: AdminHeaders, decode: string -> string)
    requires ':' in cfg.password
    requires h.adminToken == "" || h.adminToken != cfg.token
    ensures !IsAdmin(cfg, h, decode)
  {
  }

  /** Without a matching token, a header that does not start with "Basic " is refused. */
  lemma NoCredentialsRefused(cfg: AdminConfig, h: AdminHeaders, decode: string -> string)
    requires h.adminToken == "" || h.adminToken != cfg.token
    requires |h.authorization| < |BASIC| || h.authorization[..|BASIC|] != BASIC
    ensures !IsAdmin(cfg, h, decode)
  {
  }

  // ---------------------------------------------------------------------
  // Quota accounting

  /** `Math.max(DAILY_LIMIT - total, 0)`: units still orderable today. */
  function Remaining(limit: int, total: int): (r: nat)
    ensures r == 0 <==> limit <= total
    ensures r > 0 ==> total + r == limit
  {
    if limit - total > 0 then limit - total else 0
  }

  /** More committed units never leave more stock. */
  lemma RemainingAntitone(limit: int, t1: int, t2: int)
    requires t1 <= t2
    ensures Remaining(limit, t2) <= Remaining(limit, t1)
  {
  }

  /** What one order contributes to the committed quantity of `day`, whatever its status. */
  function Contribution(o: Order, day: int): int {
    if o.day == day then o.quantity else 0
  }

  /** The sum of the contributions of the rows whose ids are in `ids`. */
  ghost function CommittedOver(orders: map<int, Order>, ids: set<int>, day: int): int
    requires ids <= orders.Keys
    decreases ids
  {
    if ids == {} then 0
    else
      SetHasMember(ids);
      var k :| k in ids;
      Contribution(orders[k], day) + CommittedOver(orders, ids - {k}, day)
  }

  /** `getTodayCount`: the sum of the quantities of the orders created on `day`. */
  ghost function Committed(orders: map<int, Order>, day: int): int {
    CommittedOver(orders, orders.Keys, day)
  }

  /** The sum does not depend on the order of summation: any one row can be taken out. */
  lemma {:induction false} CommittedOverRemove(orders: map<int, Order>, ids: set<int>, k: int, day: int)
    requires ids <= orders.Keys && k in ids
    ensures CommittedOver(orders, ids, day) == CommittedOver(orders, ids - {k}, day) + Contribution(orders[k], day)
    decreases ids
  {
    SetHasMember(ids);
    var j :| j in ids && CommittedOver(orders, ids, day) == Contribution(orders[j], day) + CommittedOver(orders, ids - {j}, day);
    if j != k {
      CommittedOverRemove(orders, ids - {j}, k, day);
      CommittedOverRemove(orders, ids - {k}, j, day);
      assert ids - {j} - {k} == ids - {k} - {j};
    }
  }

  /** The sum over `ids` only looks at the rows named by `ids`. */
  lemma {:induction false} CommittedOverAgree(m1: map<int, Order>, m2: map<int, Order>, ids: set<int>, day: int)
    requires ids <= m1.Keys && ids <= m2.Keys
    requires forall k :: k in ids ==> m1[k] == m2[k]
    ensures CommittedOver(m1, ids, day) == CommittedOver(m2, ids, day)
    decreases ids
  {
    if ids != {} {
      SetHasMember(ids);
      var j :| j in ids && CommittedOver(m1, ids, day) == Contribution(m1[j], day) + CommittedOver(m1, ids - {j}, day);
      CommittedOverAgree(m1, m2, ids - {j}, day);
      CommittedOverRemove(m2, ids, j, day);
    }
  }

  /** Taking a row out of the table takes its contribution out of the sum. */
  lemma CommittedRemove(orders: map<int, Order>, k: int, day: int)
    requires k in orders
    ensures Committed(orders, day) == Committed(orders - {k}, day) + Contribution(orders[k], day)
  {
    CommittedOverRemove(orders, orders.Keys, k, day);
    var rest := orders - {k};
    assert rest.Keys == orders.Keys - {k};
    CommittedOverAgree(orders, rest, rest.Keys, day);
  }

  /** Adding a new row adds its contribution. */
  lemma CommittedInsert(orders: map<int, Order>, k: int, o: Order, day: int)
    requires k !in orders
    ensures Committed(orders[k := o], day) == Committed(orders, day) + Contribution(o, day)
  {
    CommittedRemove(orders[k := o], k, day);
    assert orders[k := o] - {k} == orders;
  }

  /** Replacing a row by one with the same day and quantity leaves the sum alone. */
  lemma CommittedReplace(orders: map<int, Order>, k: int, o: Order, day: int)
    requires k in orders
    requires o.day == orders[k].day && o.quantity == orders[k].quantity
    ensures Committed(orders[k := o], day) == Committed(orders, day)
  {
    CommittedRemove(orders, k, day);
    CommittedRemove(orders[k := o], k, day);
    assert orders[k := o] - {k} == orders - {k};
  }

  /** With positive quantities, the committed quantity of a day is never negative. */
  lemma {:induction false} CommittedOverNonNegative(orders: map<int, Order>, ids: set<int>, day: int)
    requires ids <= orders.Keys
    requires forall k :: k in orders ==> orders[k].quantity > 0
    ensures CommittedOver(orders, ids, day) >= 0
    decreases ids
  {
    if ids != {} {
      SetHasMember(ids);
    var j :| j in ids && CommittedOver(orders, ids, day) == Contribution(orders[j], day) + CommittedOver(orders, ids - {j}, day);
      assert orders[j].quantity > 0;
      assert Contribution(orders[j], day) >= 0;
      CommittedOverNonNegative(orders, ids - {j}, day);
    }
  }

  /** The table after a status route: only the order's status changes. */
  function WithStatus(orders: map<int, Order>, id: int, s: Status): (r: map<int, Order>)
    requires id in orders
    ensures r.Keys == orders.Keys
    ensures r[id].status == s && r[id].(status := orders[id].status) == orders[id]
    ensures forall k :: k in orders && k != id ==> r[k] == orders[k]
  {
    orders[id := orders[id].(status := s)]
  }

  /** Applying the same status twice is the same as applying it once. */
  lemma WithStatusIdempotent(orders: map<int, Order>, id: int, s: Status)
    requires id in orders
    ensures WithStatus(WithStatus(orders, id, s), id, s) == WithStatus(orders, id, s)
  {
  }

  /** A status change never alters the committed quantity of any day. */
  lemma WithStatusKeepsCommitted(orders: map<int, Order>, id: int, s: Status, day: int)
    requires id in orders
    ensures Committed(WithStatus(orders, id, s), day) == Committed(orders, day)
  {
    CommittedReplace(orders, id, orders[id].(status := s), day);
  }
}

=== FILE: store.dfy ===
/**
 * The order server as one object: the orders table with its auto-increment
 * id, the daily limit, the operator credentials and the set of open
 * stock-stream subscribers. Each route handler that writes or pushes is one
 * method that runs as one atomic step over this state; the read-only lookup
 * is a function of it.
 */
module OrderStore {
  import opened Numbers
  import opened Wrappers
  import opened Collections
  import opened Orders

  /** An open stock-stream response, by identity. */
  type ClientId = int

  /** The body of an order submission; "" stands for a missing or empty field, `quantity` is `Number(quantity)`. */
  datatype SubmitRequest = SubmitRequest(name: string, phone: string, quantity: NumberValue, depositorName: string)

  datatype SubmitResult =
    | Created(order: Order, code: string, remaining: nat)   // 201
    | MissingFields                                         // 400, checked first
    | InvalidQuantity                                       // 400
    | QuotaExceeded(remaining: nat)                         // 400, carries the remaining stock

  datatype LookupResult =
    | Found(order: Order, code: string)  // 200
    | MissingLookupFields                // 400
    | InvalidCode                        // 400
    | NotFound                           // 404, unknown id and wrong phone alike

  datatype AdminResult =
    | Done          // 200 {ok: true}
    | Unauthorized  // 401, before anything else
    | InvalidId     // 400
    | NoSuchOrder   // 404

  /** The stock event every subscriber receives: one message carrying `remaining`. */
  function StockPush(subscribers: set<ClientId>, remaining: nat): (pushed: map<ClientId, nat>)
    ensures pushed.Keys == subscribers
    ensures forall c :: c in pushed ==> pushed[c] == remaining
  {
    map c | c in subscribers :: remaining
  }

  /** The ids of the listed rows. */
  ghost function RowIds(rows: seq<Order>): set<int> {
    set i | 0 <= i < |rows| :: rows[i].id
  }

  /** Every listed row is the stored order under its id, and no id is listed twice. */
  ghost predicate RowsOf(orders: map<int, Order>, rows: seq<Order>) {
    (forall i :: 0 <= i < |rows| ==> rows[i].id in orders && orders[rows[i].id] == rows[i]) &&
    (forall i, j :: 0 <= i < j < |rows| ==> rows[i].id != rows[j].id)
  }

  /** `ORDER BY datetime(created_at) DESC`, on creation times in whole seconds. */
  ghost predicate NewestFirst(rows: seq<Order>) {
    forall i, j :: 0 <= i < j < |rows| ==> rows[j].createdAt <= rows[i].createdAt
  }

  /** Partway through the listing: `rows` holds the newest orders, `left` the ids not yet listed. */
  ghost predicate Listing(orders: map<int, Order>, rows: seq<Order>, left: set<int>) {
    && left <= orders.Keys
    && RowIds(rows) == orders.Keys - left
    && |rows| + |left| == |orders.Keys|
    && RowsOf(orders, rows)
    && NewestFirst(rows)
    && (forall k, i :: k in left && 0 <= i < |rows| ==> orders[k].createdAt <= rows[i].createdAt)
  }

  lemma RowIdsAppend(rows: seq<Order>, o: Order)
    ensures RowIds(rows + [o]) == RowIds(rows) + {o.id}
  {
    var rows' := rows + [o];
    assert forall i :: 0 <= i < |rows| ==> rows'[i] == rows[i];
    assert rows'[|rows|] == o;
  }

  lemma RowsOfAppend(orders: map<int, Order>, rows: seq<Order>, k: int)
    requires RowsOf(orders, rows)
    requires k in orders && orders[k].id == k && k !in RowIds(rows)
    ensures RowsOf(orders, rows + [orders[k]])
  {
    forall i | 0 <= i < |rows|
      ensures rows[i].id != k
    {
      assert rows[i].id in RowIds(rows);
    }
  }

  lemma NewestFirstAppend(rows: seq<Order>, o: Order)
    requires NewestFirst(rows)
    requires forall i :: 0 <= i < |rows| ==> o.createdAt <= rows[i].createdAt
    ensures NewestFirst(rows + [o])
  {
  }

  /** Appending the newest of the ids not yet listed keeps the listing newest-first. */
  lemma ListingStep(orders: map<int, Order>, rows: seq<Order>, left: set<int>, k: int)
    requires forall j :: j in orders ==> orders[j].id == j
    requires Listing(orders, rows, left)
    requires k in left && forall j :: j in left ==> orders[j].createdAt <= orders[k].createdAt
    ensures Listing(orders, rows + [orders[k]], left - {k})
  {
    var rows' := rows + [orders[k]];
    var left' := left - {k};
    RowIdsAppend(rows, orders[k]);
    RowsOfAppend(orders, rows, k);
    NewestFirstAppend(rows, orders[k]);
    assert |left'| == |left| - 1;
    assert forall j, i :: j in left' && 0 <= i < |rows'| ==> orders[j].createdAt <= rows'[i].createdAt;
  }

  /** A row as the insert writes it: positive quantity, both required fields, the fixed pickup window. */
  ghost predicate StoredRow(o: Order) {
    o.quantity > 0 && o.phone != "" && o.depositorName != "" && o.pickupSlot == PICKUP_TIME
  }

  /** Every stored row is keyed by its own id, which lies below the id counter. */
  ghost predicate WellFormed(orders: map<int, Order>, nextId: int) {
    nextId >= 1 &&
    forall k :: k in orders ==> 1 <= k < nextId && orders[k].id == k && StoredRow(orders[k])
  }

  /** Inserting a well-formed row under the counter's id and bumping the counter keeps the store well formed. */
  lemma WellFormedInsert(orders: map<int, Order>, nextId: int, o: Order)
    requires WellFormed(orders, nextId)
    requires o.id == nextId && StoredRow(o)
    ensures nextId !in orders
    ensures WellFormed(orders[nextId := o], nextId + 1)
  {
  }

  class OrderService {
    const dailyLimit: int
    const admin: AdminConfig
    /** The base64 decoding of basic credentials, a runtime facility outside the model. */
    const decode: string -> string

    var orders: map<int, Order>
    /** The id the next insert receives: one more than any id ever assigned. */
    var nextId: int
    var subscribers: set<ClientId>

    /** What every stored row satisfies, and that ids below the counter are the only ones used. */
    ghost predicate Valid()
      reads this
    {
      WellFormed(orders, nextId)
    }

    /** Units still orderable on `day`. */
    ghost function RemainingOn(day: int): nat
      reads this
    {
      Remaining(dailyLimit, Committed(orders, day))
    }

    constructor (dailyLimit: int, admin: AdminConfig, decode: string -> string)
      ensures Valid()
      ensures this.dailyLimit == dailyLimit && this.admin == admin && this.decode == decode
      ensures orders == map[] && nextId == 1 && subscribers == {}
    {
      this.dailyLimit := dailyLimit;
      this.admin := admin;
      this.decode := decode;
      orders := map[];
      nextId := 1;
      subscribers := {};
    }

    /** `getTodayCount`: the committed quantity of `today`, whatever the orders' status. */
    method TodayCount(today: int) returns (total: int)
      ensures total == Committed(orders, today)
    {
      total := 0;
      var left := orders.Keys;
      while left != {}
        invariant left <= orders.Keys
        invariant total + CommittedOver(orders, left, today) == Committed(orders, today)
        decreases left
      {
        SetHasMember(left);
        var k :| k in left;
        CommittedOverRemove(orders, left, k, today);
        total := total + Contribution(orders[k], today);
        left := left - {k};
      }
    }

    /** `broadcastStock`: every open subscriber gets the current remaining stock; nothing happens without subscribers. */
    method BroadcastStock(today: int) returns (pushed: map<ClientId, nat>)
      ensures pushed == StockPush(subscribers, RemainingOn(today))
      ensures subscribers == {} ==> pushed == map[]
    {
      pushed := map[];
      if subscribers == {} {
        return;
      }
      var total := TodayCount(today);
      var remaining := Remaining(dailyLimit, total);
      var left := subscribers;
      while left != {}
        invariant left <= subscribers
        invariant pushed == StockPush(subscribers - left, remaining)
        decreases left
      {
        SetHasMember(left);
        var c :| c in left;
        pushed := pushed[c := remaining];
        left := left - {c};
      }
      assert subscribers - left == subscribers;
    }

    /** A stock-stream connection: the subscriber joins the set and receives one snapshot. */
    method Subscribe(c: ClientId, today: int) returns (snapshot: nat)
      modifies this
      ensures subscribers == old(subscribers) + {c}
      ensures orders == old(orders) && nextId == old(nextId)
      ensures snapshot == RemainingOn(today)
    {
      subscribers := subscribers + {c};
      var total := TodayCount(today);
      snapshot := Remaining(dailyLimit, total);
    }

    /** GET /api/pickup-info: the units still orderable today. */
    method PickupRemaining(today: int) returns (remaining: nat)
      ensures remaining == RemainingOn(today)
      ensures remaining == 0 <==> Committed(orders, today) >= dailyLimit
    {
      var total := TodayCount(today);
      remaining := Remaining(dailyLimit, total);
    }

    /** The connection closed: the subscriber leaves the set. */
    method Unsubscribe(c: ClientId)
      modifies this
      ensures subscribers == old(subscribers) - {c}
      ensures orders == old(orders) && nextId == old(nextId)
    {
      subscribers := subscribers - {c};
    }

    /** The INSERT of an admitted order: the row goes in under the counter's id, which then advances. */
    method Insert(o: Order)
      requires Valid() && o.id == nextId && StoredRow(o)
      modifies this
      ensures Valid()
      ensures o.id !in old(orders)
      ensures orders == old(orders)[o.id := o] && nextId == old(nextId) + 1
      ensures subscribers == old(subscribers)
      ensures forall day :: Committed(orders, day) == Committed(old(orders), day) + Contribution(o, day)
    {
      WellFormedInsert(orders, nextId, o);
      forall day | true
        ensures Committed(orders[o.id := o], day) == Committed(orders, day) + Contribution(o, day)
      {
        CommittedInsert(orders, o.id, o, day);
      }
      orders := orders[o.id := o];
      nextId := nextId + 1;
    }

    /**
     * POST /api/orders. Checks run in a fixed order (fields, quantity,
     * quota) and every rejection writes nothing; an accepted order is
     * inserted under a fresh id and the new stock is pushed to every
     * subscriber.
     */
    method Submit(req: SubmitRequest, now: int, today: int) returns (r: SubmitResult, pushed: map<ClientId, nat>)
      requires Valid()
      modifies this
      ensures Valid()
      ensures subscribers == old(subscribers)
      ensures r == MissingFields <==> req.phone == "" || req.depositorName == ""
      ensures r == InvalidQuantity <==>
        req.phone != "" && req.depositorName != "" && !(req.quantity.Int? && req.quantity.value > 0)
      ensures r.QuotaExceeded? <==>
        req.phone != "" && req.depositorName != "" && req.quantity.Int? && req.quantity.value > 0 &&
        Committed(old(orders), today) + req.quantity.value > dailyLimit
      ensures r.QuotaExceeded? ==> r.remaining == Remaining(dailyLimit, Committed(old(orders), today))
      ensures !r.Created? ==> orders == old(orders) && nextId == old(nextId) && pushed == map[]
      ensures r.Created? ==>
        var id := old(nextId);
        && id !in old(orders)
        && r.order == Order(id, req.name, req.phone, req.quantity.value, PICKUP_TIME,
                            req.depositorName, PendingPayment, now, today)
        && orders == old(orders)[id := r.order]
        && nextId == id + 1
        && Committed(orders, today) == Committed(old(orders), today) + req.quantity.value
        && Committed(orders, today) <= dailyLimit
        && r.remaining == RemainingOn(today)
        && Lookup(req.phone, r.code) == Found(r.order, r.code)
        && pushed == StockPush(subscribers, r.remaining)
      ensures Committed(old(orders), today) <= dailyLimit ==> Committed(orders, today) <= dailyLimit
      ensures forall day :: day != today ==> Committed(orders, day) == Committed(old(orders), day)
    {
      pushed := map[];
      if req.phone == "" || req.depositorName == "" {
        return MissingFields, pushed;
      }
      if !(req.quantity.Int? && req.quantity.value > 0) {
        return InvalidQuantity, pushed;
      }
      var qty := req.quantity.value;
      var total := TodayCount(today);
      if total + qty > dailyLimit {
        return QuotaExceeded(Remaining(dailyLimit, total)), pushed;
      }
      var id := nextId;
      var order := Order(id, req.name, req.phone, qty, PICKUP_TIME, req.depositorName, PendingPayment, now, today);
      Insert(order);
      var code := OrderCode(id);
      assert orders[id] == order;
      LookupFindsStored(id);
      r := Created(order, code, Remaining(dailyLimit, total + qty));
      pushed := BroadcastStock(today);
    }

    /**
     * GET /api/orders/lookup. The order is returned only when both the id
     * parsed from `code` and the exact phone match; otherwise it is not found.
     */
    function Lookup(phone: string, code: string): (r: LookupResult)
      requires Valid()
      reads this
      ensures r == MissingLookupFields <==> phone == "" || code == ""
      ensures r == InvalidCode <==> phone != "" && code != "" && ParseOrderCode(code).NonInt?
      ensures r.Found? <==>
        phone != "" && code != "" && ParseOrderCode(code).Int? &&
        ParseOrderCode(code).value in orders && orders[ParseOrderCode(code).value].phone == phone
      ensures r.Found? ==>
        r.order == orders[ParseOrderCode(code).value] && r.order.phone == phone &&
        r.code == OrderCode(r.order.id) && ParseOrderCode(r.code) == Int(r.order.id)
    {
      if phone == "" || code == "" then MissingLookupFields
      else
        match ParseOrderCode(code)
        case NonInt => InvalidCode
        case Int(id) =>
          if id in orders && orders[id].phone == phone then
            OrderCodeParses(id);
            Found(orders[id], OrderCode(id))
          else NotFound
    }

    /** A stored order is always found by its own code and its phone. */
    lemma LookupFindsStored(id: int)
      requires Valid() && id in orders
      ensures Lookup(orders[id].phone, OrderCode(id)) == Found(orders[id], OrderCode(id))
    {
      OrderCodeParses(id);
    }

    /**
     * POST /api/orders/:id/mark-paid, mark-pending, mark-picked-up and
     * mark-not-picked-up: overwrite the status with the route's target,
     * whatever it was.
     */
    method UpdateStatus(h: AdminHeaders, route: StatusRoute, idParam: string, today: int)
      returns (r: AdminResult, pushed: map<ClientId, nat>)
      requires Valid()
      modifies this
      ensures Valid()
      ensures nextId == old(nextId) && subscribers == old(subscribers)
      ensures !IsAdmin(admin, h, decode) ==> r == Unauthorized
      ensures IsAdmin(admin, h, decode) && ToNumber(idParam).NonInt? ==> r == InvalidId
      ensures IsAdmin(admin, h, decode) && ToNumber(idParam).Int? ==>
        (r == Done <==> ToNumber(idParam).value in old(orders)) && (r == Done || r == NoSuchOrder)
      ensures r == Done ==>
        orders == WithStatus(old(orders), ToNumber(idParam).value, Target(route)) &&
        pushed == StockPush(subscribers, RemainingOn(today))
      ensures r != Done ==> orders == old(orders) && pushed == map[]
      ensures forall day :: Committed(orders, day) == Committed(old(orders), day)
    {
      pushed := map[];
      if !IsAdmin(admin, h, decode) {
        return Unauthorized, pushed;
      }
      match ToNumber(idParam)
      case NonInt =>
        return InvalidId, pushed;
      case Int(id) =>
        if id !in orders {
          return NoSuchOrder, pushed;
        }
        forall day | true
          ensures Committed(WithStatus(orders, id, Target(route)), day) == Committed(orders, day)
        {
          WithStatusKeepsCommitted(orders, id, Target(route), day);
        }
        orders := WithStatus(orders, id, Target(route));
        r := Done;
        pushed := BroadcastStock(today);
    }

    /** DELETE /api/orders/:id: removes the row, which gives its quantity back to its day. */
    method Delete(h: AdminHeaders, idParam: string, today: int) returns (r: AdminResult, pushed: map<ClientId, nat>)
      requires Valid()
      modifies this
      ensures Valid()
      ensures nextId == old(nextId) && subscribers == old(subscribers)
      ensures !IsAdmin(admin, h, decode) ==> r == Unauthorized
      ensures IsAdmin(admin, h, decode) && ToNumber(idParam).NonInt? ==> r == InvalidId
      ensures IsAdmin(admin, h, decode) && ToNumber(idParam).Int? ==>
        (r == Done <==> ToNumber(idParam).value in old(orders)) && (r == Done || r == NoSuchOrder)
      ensures r == Done ==>
        var id := ToNumber(idParam).value;
        && orders == old(orders) - {id}
        && (forall day :: Committed(orders, day) == Committed(old(orders), day) - Contribution(old(orders)[id], day))
        && pushed == StockPush(subscribers, RemainingOn(today))
      ensures r != Done ==> orders == old(orders) && pushed == map[]
    {
      pushed := map[];
      if !IsAdmin(admin, h, decode) {
        return Unauthorized, pushed;
      }
      match ToNumber(idParam)
      case NonInt =>
        return InvalidId, pushed;
      case Int(id) =>
        if id !in orders {
          return NoSuchOrder, pushed;
        }
        forall day | true
          ensures Committed(orders, day) == Committed(orders - {id}, day) + Contribution(orders[id], day)
        {
          CommittedRemove(orders, id, day);
        }
        orders := orders - {id};
        r := Done;
        pushed := BroadcastStock(today);
    }

    /**
     * GET /api/admin/orders: the newest orders first, at most
     * ADMIN_LIST_LIMIT of them; every order left out is no newer than any
     * listed one. Orders created in the same second may come in any order.
     */
    method ListRecent(h: AdminHeaders) returns (authorized: bool, rows: seq<Order>)
      requires Valid()
      ensures authorized == IsAdmin(admin, h, decode)
      ensures !authorized ==> rows == []
      ensures authorized ==> |rows| == if |orders| < ADMIN_LIST_LIMIT then |orders| else ADMIN_LIST_LIMIT
      ensures RowsOf(orders, rows) && NewestFirst(rows)
      ensures forall k, i :: k in orders && k !in RowIds(rows) && 0 <= i < |rows| ==>
        orders[k].createdAt <= rows[i].createdAt
    {
      authorized := IsAdmin(admin, h, decode);
      rows := [];
      if !authorized {
        return;
      }
      var left := orders.Keys;
      while |rows| < ADMIN_LIST_LIMIT && left != {}
        invariant Listing(orders, rows, left)
        invariant |rows| <= ADMIN_LIST_LIMIT
        decreases left
      {
        var k := Newest(left);
        ListingStep(orders, rows, left, k);
        rows := rows + [orders[k]];
        left := left - {k};
      }
      assert |orders| == |orders.Keys|;
    }

    /** An id among `ids` whose order was created last. */
    method Newest(ids: set<int>) returns (k: int)
      requires ids != {} && ids <= orders.Keys
      ensures k in ids
      ensures forall j :: j in ids ==> orders[j].createdAt <= orders[k].createdAt
    {
      SetHasMember(ids);
      k :| k in ids;
      var rest := ids - {k};
      while rest != {}
        invariant rest <= ids && k in ids
        invariant forall j :: j in ids && j !in rest ==> orders[j].createdAt <= orders[k].createdAt
        decreases rest
      {
        SetHasMember(rest);
        var j :| j in rest;
        if orders[j].createdAt > orders[k].createdAt {
          k := j;
        }
        rest := rest - {j};
      }
    }
  }
}

=== FILE: wrappers.dfy ===
/** The optional-value datatype used across the model. */
module Wrappers {

  datatype Option<+T> = None | Some(value: T)
}
